=== FILE: README.md ===
# Memory match: game session and leaderboard rule in Dafny

This project models the logic of a browser card-pairs game with a shared
leaderboard. It covers two pieces.

- **The game session** (`components/MemoryGame.tsx`). Sixteen face-down cards,
  each of eight faces twice, are shuffled. The player turns cards over two at a
  time. After a one-second delay a matching pair is added to the solved
  positions and every pair counts one attempt. The player wins when the solved
  list is as long as the deck. A clock runs while the game is started and not
  over. A finished game's attempt count can be saved, and that starts a fresh
  session. Every React state update, timeout and interval is modelled as one
  step function over an immutable `State`: `Start`, `Click`, `Resolve`,
  `Tick`, `Save`. `Step` and `Run` apply a sequence of such events.
- **The leaderboard endpoint** (`pages/api/addUser.js`). Users are kept in a
  store keyed by email. A POST creates the user for an unknown email. For a
  known email it lowers the stored attempt count when the new count is strictly
  lower, and otherwise changes nothing. It answers 200 with the stored user.
  Any other HTTP method gets 405. The client sorts the fetched leaderboard by
  ascending attempts.

Modules, one concern each:

| file | module | models |
|---|---|---|
| `optional.dfy` | `Optional` | `Option`, for JavaScript `undefined` and failed parses |
| `deck.dfy` | `Deck` | `generateDeck`: the catalog, the duplication, the shuffle |
| `session.dfy` | `Session` | the component's game state and its steps, as written |
| `guarded_session.dfy` | `GuardedSession` | the same game with the click rule corrected (see Findings) |
| `time_display.dfy` | `TimeDisplay` | the `m:ss` clock display and a reader for it |
| `users.dfy` | `Users` | the `addUser` endpoint: upsert-if-better and the method check |
| `ranking.dfy` | `Ranking` | the ascending, stable sort of the fetched leaderboard |
| `submission.dfy` | `ScoreSubmission` | `saveScore` feeding its POST to the endpoint |

Randomness is a parameter. The random-comparator sort is a sequence of
exchanges that the caller supplies. The model proves that every sequence gives
a deck with each face twice. It also proves that every such arrangement comes
from some sequence. So "the shuffle is some permutation" holds exactly. Whether
the POST reaches the server is also a parameter, `delivered`.

Reading `cards[i]` outside the deck yields `undefined` in JavaScript. The model
keeps this (`CardAt` returns `None`), so two positions off the board would
compare equal. The board only renders clickable tiles for positions of the
deck, so the invariants about positions are proved for runs where every click
lands on the board (`PlayedOnBoard`).

## Model

| member | source | states |
|---|---|---|
| `Deck.Shuffle` | components/MemoryGame.tsx:28 | a random-comparator sort only rearranges: same length, same multiset of cards |
| `Deck.GenerateDeck` | components/MemoryGame.tsx:15-29 | every generated deck has 2 × 8 = 16 cards and every catalog face exactly twice |
| `Deck.DeckShape` | components/MemoryGame.tsx:16-27 | any arrangement of the catalog written twice has 16 cards, each face twice |
| `Deck.ShuffleReaches` | components/MemoryGame.tsx:28 | any rearrangement of a list is the outcome of some run of exchanges, so the shuffle can produce every permutation |
| `Deck.EveryDeckIsGenerated` | components/MemoryGame.tsx:27-28 | every arrangement with each face exactly twice is the outcome of some shuffle |
| `Session.Fresh` | components/MemoryGame.tsx:53-62 | a new session: the given deck, nothing flipped or solved, zero attempts and seconds, not started, no message |
| `Session.CardAt` | components/MemoryGame.tsx:79 | array reads give the card inside the deck and `undefined` outside it |
| `Session.Start` | components/MemoryGame.tsx:103-105 | submitting the details form changes only the started flag, and it starts the clock of any game that is not already won |
| `Session.Click` | components/MemoryGame.tsx:92-99 | a click on a position already in `flipped` (turned over, not yet resolved), or with two cards waiting, is a no-op; a solved position is not refused; otherwise exactly that position is appended to `flipped` and the game is started; cards, solved, attempts, seconds and message never change |
| `Session.Resolve` | components/MemoryGame.tsx:76-90 | with `flipped = [a, b]`: on equal cards `solved` becomes `solved ++ [a, b]`, otherwise it is unchanged; `flipped` is emptied and attempts grow by exactly 1 in both cases |
| `Session.Tick` | components/MemoryGame.tsx:129-143 | a clock tick adds one second exactly when the game is started and not over, and changes nothing else |
| `Session.ClockCountsSeconds` | components/MemoryGame.tsx:129-143 | n ticks of a running clock add n seconds and nothing else; a stopped clock stays frozen |
| `Session.Save` | components/MemoryGame.tsx:107-127 | before the win it only sets the error message and sends nothing; after it, it sends name, email and attempts and resets to a fresh two-of-each deck with empty lists, zero counters, not started |
| `Session.RunAppend` | components/MemoryGame.tsx:76-143 | running two event sequences one after the other equals running their concatenation |
| `Session.StepKeepsFlipInvariant` | components/MemoryGame.tsx:92-99 | every event keeps at most two positions in `flipped` (turned over, not yet resolved), none repeated, whatever is clicked |
| `Session.RunKeepsFlipInvariant` | components/MemoryGame.tsx:92-99 | in every reachable state `flipped` has at most two entries and no duplicates |
| `Session.FreshIsConsistent` | components/MemoryGame.tsx:53-58 | a session on a generated deck starts consistent |
| `Session.StepKeepsConsistent` | components/MemoryGame.tsx:76-127 | an on-board event keeps the deck two-of-each, the flip invariant, and all flipped and solved positions on the deck |
| `Session.RunKeepsConsistent` | components/MemoryGame.tsx:76-127 | every state reached by on-board play is consistent |
| `Session.WinMeansAllSolved` | components/MemoryGame.tsx:101 | when `solved` has no duplicates and lies on the deck, the length-based win test holds iff every position is solved |
| `Session.PlayPairRound` | components/MemoryGame.tsx:77-97 | two clicks on a matching pair and the delay append the pair to `solved` |
| `Session.ClicksWithinOnBoard` | components/MemoryGame.tsx:183-188 | events that click only on tiles of the deck and never save are on-board play, since nothing but a save deals new cards |
| `Session.ReplayOnBoard` | components/MemoryGame.tsx:92-99 | replaying any two positions of the deck, matching or not, any number of times is legal on-board play |
| `Session.ReplayOnePair` | components/MemoryGame.tsx:77-97 | replaying one matching pair k times keeps the old `solved` entries in place, appends 2k entries that are each one of the two positions, and adds k attempts |
| `Session.ReplayFoolsWinTest` | components/MemoryGame.tsx:93-101 | on any even-sized deck, replaying one pair half as many times as there are cards passes the win test with only those two positions ever solved |
| `Session.FalseWin` | components/MemoryGame.tsx:93-101 | every dealt 16-card deck reaches a state that passes the win test while only the first card and its twin were ever solved |
| `Session.WinUndone` | components/MemoryGame.tsx:93-143 | after a win, clicking a solved pair again makes the game not over and restarts the clock |
| `Session.WinKeptAttemptCounted` | components/MemoryGame.tsx:76-101 | after a win, clicking two solved cards that do not match keeps the win and `solved` as they are and adds one attempt to the score that will be saved |
| `Session.TwoPairGame` | components/MemoryGame.tsx:76-101 | on the deck alien, astronaut, alien, astronaut, flipping 0, 2 then 1, 3 solves [0, 2, 1, 3] in two attempts and wins |
| `GuardedSession.ClickGuarded` | components/MemoryGame.tsx:92-99 | the corrected click also ignores solved positions and positions off the board |
| `GuardedSession.StepGuardedKeepsInvariant` | components/MemoryGame.tsx:76-127 | with the corrected click every event keeps `solved` free of repeats and apart from `flipped` |
| `GuardedSession.RunGuardedKeepsInvariant` | components/MemoryGame.tsx:76-127 | the corrected invariant holds after any sequence of events |
| `GuardedSession.GuardedWinMeansAllSolved` | components/MemoryGame.tsx:101 | in the corrected game, from any two-of-each deck and after any events, the win test holds iff every position is solved |
| `GuardedSession.NoClickAfterWin` | components/MemoryGame.tsx:92-101 | in the corrected game no click is accepted once the game is won |
| `GuardedSession.ReplayRefused` | components/MemoryGame.tsx:93 | in the corrected game a click on a solved position changes nothing |
| `TimeDisplay.Decimal` | components/MemoryGame.tsx:178 | `String(n)` is a canonical digit string denoting n |
| `TimeDisplay.PadStart` | components/MemoryGame.tsx:178 | `padStart` brings the string to the width with fill characters in front and keeps it as its suffix |
| `TimeDisplay.Format` | components/MemoryGame.tsx:178 | the display is canonical minutes `seconds / 60`, a colon, and exactly two digits denoting `seconds % 60` |
| `TimeDisplay.ParseIsInverse` | components/MemoryGame.tsx:178 | a string reads as n iff it is the display of n |
| `TimeDisplay.ParseFormat` | components/MemoryGame.tsx:178 | reading a display gives back its seconds |
| `TimeDisplay.FormatParse` | components/MemoryGame.tsx:178 | every string the reader accepts is a display |
| `Users.Upsert` | pages/api/addUser.js:10-28 | an absent email gains exactly the new record; a present one keeps its name and gets `min(old, new)` attempts, and the store is untouched when the new count is not lower; other emails never change; the stored record is returned |
| `Users.UpsertKeepsKeys` | pages/api/addUser.js:10-28 | every record stays under its own email |
| `Users.UpsertIdempotent` | pages/api/addUser.js:10-28 | posting the same result twice equals posting it once, store and answer |
| `Users.UpsertCreates` | pages/api/addUser.js:24-27 | a new email grows the store by exactly one record |
| `Users.PostAllKeepsBest` | pages/api/addUser.js:10-23 | after any series of posts for one email, the stored attempts are the minimum of all results and of the earlier record; the first name stays; other records are unchanged |
| `Users.KeepsLowerScore` | pages/api/addUser.js:15-23 | posting 10 then 15 keeps 10; posting 10 then 5 stores 5 |
| `Users.Handle` | pages/api/addUser.js:5-38 | a non-POST request gets 405 and leaves the store alone; a POST leaves the store exactly as the upsert rule does and answers 200 with the user that rule stores under the email |
| `Users.HandleRepeatable` | pages/api/addUser.js:5-38 | sending the same request a second time changes nothing more and gets the same answer |
| `Ranking.Insert` | components/MemoryGame.tsx:68 | inserting into an ascending list keeps it ascending and adds exactly that user |
| `Ranking.SortByAttempts` | components/MemoryGame.tsx:68 | the sorted leaderboard is non-decreasing in attempts and a permutation of the fetched list |
| `Ranking.SortIsStable` | components/MemoryGame.tsx:68 | users with equal attempts keep their fetched order |
| `ScoreSubmission.SaveScore` | components/MemoryGame.tsx:107-127 | saving before the win only sets the message and leaves the store alone; after the win the session is reset exactly as `Save` resets it (fresh deck, nothing flipped or solved, zero attempts and seconds, not started) whether or not the request arrives; a delivered save has exactly the effect of the endpoint's upsert: the store gains the email and no other key, a new email gets `User(name, email, attempts)`, an existing one keeps its name and email and stores `min(old, attempts)`, and every other record is unchanged |
| `ScoreSubmission.SavedOnce` | components/MemoryGame.tsx:107-127 | after a won save the session is no longer over, so pressing save again is refused and the leaderboard is not touched a second time |

## Findings

| source | as written | input that shows it | evidently intended | confidence | as-written member | corrected member |
|---|---|---|---|---|---|---|
| components/MemoryGame.tsx:93 | `handleClick` refuses a position only when it is already in `flipped`, not when it is solved; the win test at line 101 compares lengths | on any dealt deck, click the first card and its twin and wait for the delay, eight times: `solved` reaches 16 entries and "YOU WIN!" shows with 14 positions never solved; clicking a solved pair after a real win undoes the win and restarts the clock; clicking two solved cards that do not match after a real win keeps "YOU WIN!" and adds an attempt to the score that is saved | a solved card cannot be turned over again, so the win test means every position is solved; the "YOU WIN!" banner (line 181) and the save button kept disabled until the win (line 200) rely on this | high (not executed) | `Session.FalseWin` | `GuardedSession.GuardedWinMeansAllSolved` |

## Left out

- Rendering, JSX, images, CSS classes and `location.reload` (components/MemoryGame.tsx:126 and 145-217) are left out. The reload happens after the reset, so it adds nothing to the state.
- The real timing of the one-second delay and the one-second interval is left out. The delay is the `DelayElapsed` event and a clock second is the `SecondElapsed` event.
- `Math.random` and how non-uniform the random-comparator sort is are left out. The shuffle is a caller-supplied sequence of exchanges.
- The client helper `addUser` (components/MemoryGame.tsx:31-50), `fetch`, JSON and the `fetchUsers` request are left out. A save is either delivered or not (`ScoreSubmission.SaveScore`). The helper catches every network or HTTP error, logs it to the console and returns nothing, so `saveScore` always clears the message and resets; no failure reaches the player.
- The Prisma client, its 500 error path and the user `id` it generates are left out. The store is an abstract map from email to user. The id only serves as a list key.
- React's effect scheduling and stale closures are left out. Each effect callback is one step that reads the current state.
- The atomicity of the database's find-then-update under concurrent requests is left out. Requests are applied one at a time.
- Request bodies are typed: the model assumes `attempts` is an integer. JSON values of other types are not modelled.
- The name and email form fields are UI state. They are parameters of `Save`.
- pages/api/users.js, pages/api/getAvatar.js, components/LeaderboardModal.tsx, components/UserForm.tsx, contexts/LeaderboardContext.tsx and app/page.tsx are UI, avatar fetching or thin wrappers with no logic of their own. They are not part of this model.
- `Session.Click` accepts a click on a solved card and after the win, because `handleClick` (components/MemoryGame.tsx:93) does. The program evidently intends otherwise: the "YOU WIN!" banner (line 181) and the save button disabled until the win (line 200) only make sense if each position is solved once. `GuardedSession` holds that rule (see Findings).
- `TimeDisplay.Decimal` and every counter (seconds, attempts) are unbounded naturals. JavaScript numbers lose integer precision above 2^53 and `String` switches to exponent notation from 10^21; a clock counting once a second, or an attempt count, never gets there.

=== FILE: deck.dfy ===
/**
  Deck generation (`generateDeck` in components/MemoryGame.tsx).

  The catalog of eight faces is written out twice and the result is put
  through `Array.prototype.sort` with a random comparator.  The random
  comparator is modelled as the sequence of exchanges the sort ends up
  performing, supplied by the caller; the model proves that every such
  sequence yields a deck with each face exactly twice, and that every
  arrangement with each face exactly twice is produced by some sequence.
*/
module Deck {

  /** The faces printed on the cards. */
  datatype Symbol = Alien | Astronaut | Dolphin | Grandma | LaptopBoy | Penguin | Pizza | Tiger

  /** The catalog in the order the component lists it, every face once. */
  const Catalog: seq<Symbol> := [Alien, Astronaut, Dolphin, Grandma, LaptopBoy, Penguin, Pizza, Tiger]

  /** The catalog followed by itself: the deck before it is shuffled. */
  const Unshuffled: seq<Symbol> := Catalog + Catalog

  /** A full deck: the faces of the catalog, each exactly twice, in some order. */
  ghost predicate IsDeck(d: seq<Symbol>) {
    multiset(d) == multiset(Unshuffled)
  }

  /** One exchange of the shuffle: positions `i` and `j` trade places.
      An exchange naming a position outside the sequence changes nothing. */
  function Swap<T>(d: seq<T>, i: nat, j: nat): (r: seq<T>)
    ensures |r| == |d|
    ensures multiset(r) == multiset(d)
    ensures i < |d| && j < |d| ==> r[i] == d[j] && r[j] == d[i]
    ensures forall k :: 0 <= k < |d| && k != i && k != j ==> r[k] == d[k]
  {
    if i < |d| && j < |d| then d[i := d[j]][j := d[i]] else d
  }

  /** The effect of a sort driven by a random comparator: a run of exchanges. */
  function Shuffle<T>(d: seq<T>, exchanges: seq<(nat, nat)>): (r: seq<T>)
    ensures |r| == |d|
    ensures multiset(r) == multiset(d)
    decreases |exchanges|
  {
    if exchanges == [] then d
    else Shuffle(Swap(d, exchanges[0].0, exchanges[0].1), exchanges[1..])
  }

  /** `generateDeck`: sixteen cards, every face of the catalog exactly twice. */
  function GenerateDeck(exchanges: seq<(nat, nat)>): (d: seq<Symbol>)
    ensures IsDeck(d)
    ensures |d| == 2 * |Catalog|
    ensures forall x: Symbol :: multiset(d)[x] == 2
  {
    var d := Shuffle(Unshuffled, exchanges);
    DeckShape(d);
    d
  }

  /** What a deck looks like: sixteen cards, two of each face. */
  lemma DeckShape(d: seq<Symbol>)
    requires IsDeck(d)
    ensures |d| == 16
    ensures forall x: Symbol :: multiset(d)[x] == 2
  {
    calc {
      |d|;
      |multiset(d)|;
      |multiset(Unshuffled)|;
      |Unshuffled|;
    }
    forall x: Symbol ensures multiset(d)[x] == 2 {
      assert multiset(Unshuffled) == multiset(Catalog) + multiset(Catalog);
      CatalogOnce(x);
    }
  }

  /** Every face is listed in the catalog exactly once. */
  lemma CatalogOnce(x: Symbol)
    ensures multiset(Catalog)[x] == 1
  {
  }

  /** The first position at or after `k` that holds `x`. */
  function IndexFrom<T(==)>(s: seq<T>, x: T, k: nat): (j: nat)
    requires k <= |s|
    requires x in multiset(s[k..])
    ensures k <= j < |s| && s[j] == x
    decreases |s| - k
  {
    assert s[k..] == [s[k]] + s[k + 1..];
    if s[k] == x then k else IndexFrom(s, x, k + 1)
  }

  /** Splitting a sequence splits its multiset. */
  lemma MultisetSplit<T>(s: seq<T>, k: nat)
    requires k <= |s|
    ensures multiset(s) == multiset(s[..k]) + multiset(s[k..])
  {
    assert s == s[..k] + s[k..];
  }

  /** Two arrangements of the same cards that agree up to `k` hold the same
      cards from `k` on. */
  lemma SameSuffix<T>(src: seq<T>, dst: seq<T>, k: nat)
    requires |src| == |dst| && k <= |src|
    requires multiset(src) == multiset(dst)
    requires src[..k] == dst[..k]
    ensures multiset(src[k..]) == multiset(dst[k..])
  {
    MultisetSplit(src, k);
    MultisetSplit(dst, k);
    forall x ensures multiset(src[k..])[x] == multiset(dst[k..])[x] {
      assert multiset(src)[x] == multiset(dst)[x];
    }
  }

  /** Bringing the card `dst[k]` to position `k` extends the agreeing prefix. */
  lemma SwapExtendsPrefix<T>(src: seq<T>, dst: seq<T>, k: nat, j: nat)
    requires |src| == |dst| && k <= j < |src|
    requires src[..k] == dst[..k] && src[j] == dst[k]
    ensures Swap(src, k, j)[..k + 1] == dst[..k + 1]
  {
  }

  /** Once `src` and `dst` agree on their first `k` positions, these
      exchanges turn `src` into `dst`: each brings the card `dst` wants at the
      next position into place. */
  ghost function ExchangesFrom<T>(src: seq<T>, dst: seq<T>, k: nat): (r: seq<(nat, nat)>)
    requires |src| == |dst| && k <= |src|
    requires multiset(src) == multiset(dst)
    requires src[..k] == dst[..k]
    ensures Shuffle(src, r) == dst
    decreases |src| - k
  {
    if k == |src| then
      assert src == src[..k] && dst == dst[..k];
      []
    else
      SameSuffix(src, dst, k);
      assert dst[k..] == [dst[k]] + dst[k + 1..];
      var j := IndexFrom(src, dst[k], k);
      SwapExtendsPrefix(src, dst, k, j);
      var rest := ExchangesFrom(Swap(src, k, j), dst, k + 1);
      ShuffleFirst(src, k, j, rest);
      [(k, j)] + rest
  }

  /** An exchange followed by a run of exchanges is a longer run. */
  lemma ShuffleFirst<T>(src: seq<T>, i: nat, j: nat, rest: seq<(nat, nat)>)
    ensures Shuffle(src, [(i, j)] + rest) == Shuffle(Swap(src, i, j), rest)
  {
    var all := [(i, j)] + rest;
    assert all[0] == (i, j) && all[1..] == rest;
  }

  /** Any two arrangements of the same cards are one shuffle apart. */
  lemma ShuffleReaches<T>(src: seq<T>, dst: seq<T>)
    requires |src| == |dst| && multiset(src) == multiset(dst)
    ensures exists exchanges :: Shuffle(src, exchanges) == dst
  {
    var exchanges := ExchangesFrom(src, dst, 0);
    assert Shuffle(src, exchanges) == dst;
  }

  /** Every arrangement of the sixteen cards is a possible outcome of the shuffle. */
  lemma EveryDeckIsGenerated(d: seq<Symbol>)
    requires IsDeck(d)
    ensures exists exchanges :: GenerateDeck(exchanges) == d
  {
    DeckShape(d);
    var exchanges := ExchangesFrom(Unshuffled, d, 0);
    assert GenerateDeck(exchanges) == d;
  }

}

=== FILE: guarded_session.dfy ===
/**
  The session with the click rule the game evidently intends: a click is
  accepted only on a face-down card of the board, so a solved position can
  no longer be turned over and counted again.  Every other step is the one
  of module Session.
*/
module GuardedSession {
  import opened Deck
  import opened Session

  /** A face-down card of the board, with fewer than two cards waiting. */
  predicate AcceptsGuarded(s: State, i: nat) {
    Accepts(s, i) && i !in s.solved && i < |s.cards|
  }

  /** `handleClick` refusing solved positions as well. */
  function ClickGuarded(s: State, i: nat): (t: State)
    ensures !AcceptsGuarded(s, i) ==> t == s
    ensures AcceptsGuarded(s, i) ==> t == Click(s, i)
    ensures i in s.solved ==> t == s
  {
    if AcceptsGuarded(s, i) then Click(s, i) else s
  }

  /** One event of the corrected game: clicks go through `ClickGuarded`,
      every other event is the step of module Session. */
  function StepGuarded(s: State, e: Event): (t: State) {
    match e
    case ClickCard(i) => ClickGuarded(s, i)
    case _ => Step(s, e)
  }

  /** A run of events of the corrected game, in order. */
  function RunGuarded(s: State, events: seq<Event>): (t: State)
    decreases |events|
  {
    if events == [] then s else RunGuarded(StepGuarded(s, events[0]), events[1..])
  }

  /** No position is both in `flipped` and solved. */
  ghost predicate Apart(s: State) {
    forall j, k :: 0 <= j < |s.flipped| && 0 <= k < |s.solved| ==> s.flipped[j] != s.solved[k]
  }

  /** What holds of every state of the corrected game. */
  ghost predicate GuardedInvariant(s: State) {
    Consistent(s) && Distinct(s.solved) && Apart(s)
  }

  /** Joining two lists without repeats and without common entries gives a
      list without repeats. */
  lemma DistinctJoin(xs: seq<nat>, ys: seq<nat>)
    requires Distinct(xs) && Distinct(ys)
    requires forall j, k :: 0 <= j < |xs| && 0 <= k < |ys| ==> xs[j] != ys[k]
    ensures Distinct(xs + ys)
  {
  }

  /** An accepted corrected click keeps the invariant. */
  lemma ClickGuardedKeepsInvariant(s: State, i: nat)
    requires GuardedInvariant(s)
    ensures GuardedInvariant(ClickGuarded(s, i))
  {
  }

  /** Every corrected step keeps the invariant, whatever is clicked. */
  lemma StepGuardedKeepsInvariant(s: State, e: Event)
    requires GuardedInvariant(s)
    ensures GuardedInvariant(StepGuarded(s, e))
  {
    match e
    case ClickCard(i) =>
      ClickGuardedKeepsInvariant(s, i);
    case DelayElapsed =>
      StepKeepsConsistent(s, e);
      if Pending(s) && IsMatch(s) {
        DistinctJoin(s.solved, s.flipped);
      }
    case _ =>
      StepKeepsConsistent(s, e);
  }

  /** The invariant holds after any run of the corrected game. */
  lemma {:induction false} RunGuardedKeepsInvariant(s: State, events: seq<Event>)
    requires GuardedInvariant(s)
    ensures GuardedInvariant(RunGuarded(s, events))
    decreases |events|
  {
    if events != [] {
      StepGuardedKeepsInvariant(s, events[0]);
      RunGuardedKeepsInvariant(StepGuarded(s, events[0]), events[1..]);
    }
  }

  /** In the corrected game, from any fresh deck and after any events, the
      win test holds exactly when every position of the board is solved.  Every
      dealt deck qualifies (see `GenerateDeck`). */
  lemma GuardedWinMeansAllSolved(d: seq<Symbol>, events: seq<Event>)
    requires IsDeck(d)
    ensures var t := RunGuarded(Fresh(d), events);
            GameOver(t) <==> forall i :: 0 <= i < |t.cards| ==> i in t.solved
  {
    RunGuardedKeepsInvariant(Fresh(d), events);
    WinMeansAllSolved(RunGuarded(Fresh(d), events));
  }

  /** After the win no click is accepted. */
  lemma NoClickAfterWin(s: State, i: nat)
    requires GuardedInvariant(s) && GameOver(s)
    ensures ClickGuarded(s, i) == s
  {
    WinMeansAllSolved(s);
  }

  /** The replay that fooled the original win test is refused: clicking a
      solved position changes nothing. */
  lemma ReplayRefused(s: State, a: nat)
    requires a in s.solved
    ensures RunGuarded(s, [ClickCard(a)]) == s
  {
    assert [ClickCard(a)][1..] == [];
  }

}

=== FILE: optional.dfy ===
/** A value that may be absent: JavaScript's `undefined`, or a parse that failed. */
module Optional {

  datatype Option<+T> = None | Some(value: T)

}

=== FILE: ranking.dfy ===
/**
  The leaderboard order (`fetchUsers` in components/MemoryGame.tsx):
  `data.sort((a, b) => a.attempts - b.attempts)`.  `Array.prototype.sort` is
  stable, so users with equal attempt counts keep the order the endpoint
  listed them in.  The sort is modelled as an insertion sort.
*/
module Ranking {
  import opened Users

  /** Fewest attempts first. */
  ghost predicate Ascending(us: seq<User>) {
    forall i, j :: 0 <= i < j < |us| ==> us[i].attempts <= us[j].attempts
  }

  /** Puts `u` in front of the first user with at least as many attempts. */
  function Insert(u: User, us: seq<User>): (r: seq<User>)
    requires Ascending(us)
    ensures Ascending(r)
    ensures multiset(r) == multiset(us) + multiset{u}
    ensures forall x :: x in r ==> x == u || x in us
    decreases |us|
  {
    if us == [] then [u]
    else if u.attempts <= us[0].attempts then
      HeadIsLeast(us);
      ConsAscending(u, us);
      [u] + us
    else
      var rest := Insert(u, us[1..]);
      assert us == [us[0]] + us[1..];
      assert multiset([us[0]] + rest) == multiset{us[0]} + multiset(rest);
      HeadIsLeast(us);
      ConsAscending(us[0], rest);
      [us[0]] + rest
  }

  /** In an ascending list nobody after the first has fewer attempts. */
  lemma HeadIsLeast(us: seq<User>)
    requires Ascending(us) && us != []
    ensures forall x :: x in us[1..] ==> us[0].attempts <= x.attempts
  {
  }

  /** A user with no more attempts than anyone in an ascending list can head it. */
  lemma ConsAscending(h: User, rest: seq<User>)
    requires Ascending(rest)
    requires forall x :: x in rest ==> h.attempts <= x.attempts
    ensures Ascending([h] + rest)
  {
  }

  /** The leaderboard order: ascending by attempts, the same users. */
  function SortByAttempts(us: seq<User>): (r: seq<User>)
    ensures Ascending(r)
    ensures multiset(r) == multiset(us)
    decreases |us|
  {
    if us == [] then []
    else
      assert us == [us[0]] + us[1..];
      Insert(us[0], SortByAttempts(us[1..]))
  }

  /** The users with exactly `k` attempts, in their order. */
  function WithAttempts(us: seq<User>, k: int): (r: seq<User>)
    ensures forall i :: 0 <= i < |r| ==> r[i].attempts == k
    decreases |us|
  {
    if us == [] then []
    else if us[0].attempts == k then [us[0]] + WithAttempts(us[1..], k)
    else WithAttempts(us[1..], k)
  }

  lemma {:induction false} WithAttemptsInsert(u: User, us: seq<User>, k: int)
    requires Ascending(us)
    ensures WithAttempts(Insert(u, us), k)
            == (if u.attempts == k then [u] else []) + WithAttempts(us, k)
    decreases |us|
  {
    if us == [] || u.attempts <= us[0].attempts {
      var r := [u] + us;
      assert r[0] == u && r[1..] == us;
    } else {
      var rest := Insert(u, us[1..]);
      var r := [us[0]] + rest;
      assert r[0] == us[0] && r[1..] == rest;
      WithAttemptsInsert(u, us[1..], k);
    }
  }

  /** The sort is stable: among users with the same attempt count, the order
      of the fetched list is kept. */
  lemma {:induction false} SortIsStable(us: seq<User>, k: int)
    ensures WithAttempts(SortByAttempts(us), k) == WithAttempts(us, k)
    decreases |us|
  {
    if us != [] {
      SortIsStable(us[1..], k);
      WithAttemptsInsert(us[0], SortByAttempts(us[1..]), k);
    }
  }

}

=== FILE: session.dfy ===
/**
  The game session of components/MemoryGame.tsx, exactly as written.

  Every React state update, `setTimeout` callback and `setInterval` callback
  is one discrete step over an immutable `State`:
    - `Start`   the details form is submitted (`handleStart`);
    - `Click`   a card is clicked (`handleClick`);
    - `Resolve` the one-second delay after a second card elapses (`checkForMatch`
                together with the attempt count update);
    - `Tick`    one second of the game clock passes;
    - `Save`    the save button is pressed (`saveScore`).
  Randomness (the shuffle) is a parameter; see module Deck.
*/
module Session {
  import opened Optional
  import opened Deck

  /** The component's game state.  `flipped` and `solved` are lists of card
      positions, kept in the order they were added, as in the component. */
  datatype State = State(
    cards: seq<Symbol>,
    flipped: seq<nat>,
    solved: seq<nat>,
    attempts: nat,
    seconds: nat,
    gameStarted: bool,
    errorMessage: string)

  /** The message shown when the score is saved before the game is over. */
  const NotFinishedMessage: string := "You need to finish the game to save your score!"

  /** The state of a freshly mounted component, and of a reset, over `deck`. */
  function Fresh(deck: seq<Symbol>): (s: State)
    ensures s.cards == deck && s.flipped == [] && s.solved == []
    ensures s.attempts == 0 && s.seconds == 0 && !s.gameStarted && s.errorMessage == ""
  {
    State(deck, [], [], 0, 0, false, "")
  }

  /** JavaScript's `cards[i]`: `undefined` (None) outside the deck. */
  function CardAt(cards: seq<Symbol>, i: nat): (r: Option<Symbol>)
    ensures r.Some? <==> i < |cards|
    ensures r.Some? ==> r.value == cards[i]
  {
    if i < |cards| then Some(cards[i]) else None
  }

  /** `gameOver`: as many solved entries as cards.  This counts entries of the
      `solved` list, not distinct positions. */
  predicate GameOver(s: State) {
    |s.cards| == |s.solved|
  }

  /** The guard of `handleClick`. */
  predicate Accepts(s: State, i: nat) {
    i !in s.flipped && |s.flipped| < 2
  }

  /** `handleStart`: the details form was submitted.  Only the started flag
      can change, and unless the game is already over the clock now runs. */
  function Start(s: State): (t: State)
    ensures t == s.(gameStarted := t.gameStarted) && t.gameStarted
    ensures !GameOver(s) ==> ClockRunning(t)
  {
    s.(gameStarted := true)
  }

  /** `handleClick(i)`.  A click on a position already in `flipped`, or while two
      cards wait for resolution, does nothing.  Otherwise position `i` is
      appended to `flipped` and the game counts as started.  Solved positions
      are not refused. */
  function Click(s: State, i: nat): (t: State)
    ensures !Accepts(s, i) ==> t == s
    ensures Accepts(s, i) ==> t.flipped == s.flipped + [i] && t.gameStarted
    ensures t.cards == s.cards && t.solved == s.solved && t.attempts == s.attempts
    ensures t.seconds == s.seconds && t.errorMessage == s.errorMessage
  {
    if Accepts(s, i) then s.(flipped := s.flipped + [i], gameStarted := true) else s
  }

  /** Exactly two positions turned over and not yet resolved: the resolution
      timer is scheduled. */
  predicate Pending(s: State) {
    |s.flipped| == 2
  }

  /** The comparison `cards[first] === cards[second]`. */
  predicate IsMatch(s: State)
    requires Pending(s)
  {
    CardAt(s.cards, s.flipped[0]) == CardAt(s.cards, s.flipped[1])
  }

  /** The delayed resolution: a matching pair is appended to `solved`, the
      turned-over positions are cleared from `flipped`, and one more attempt is counted,
      whatever the outcome. */
  function Resolve(s: State): (t: State)
    requires Pending(s)
    ensures t.flipped == []
    ensures t.attempts == s.attempts + 1
    ensures IsMatch(s) ==> t.solved == s.solved + [s.flipped[0], s.flipped[1]]
    ensures !IsMatch(s) ==> t.solved == s.solved
    ensures t.cards == s.cards && t.seconds == s.seconds
    ensures t.gameStarted == s.gameStarted && t.errorMessage == s.errorMessage
  {
    var solved := if IsMatch(s) then s.solved + s.flipped else s.solved;
    s.(solved := solved, flipped := [], attempts := s.attempts + 1)
  }

  /** The interval is installed only while the game is started and not over. */
  predicate ClockRunning(s: State) {
    s.gameStarted && !GameOver(s)
  }

  /** One second of the game clock. */
  function Tick(s: State): (t: State)
    ensures t == s.(seconds := t.seconds)
    ensures t.seconds == s.seconds + 1 <==> ClockRunning(s)
    ensures !ClockRunning(s) ==> t == s
  {
    if ClockRunning(s) then s.(seconds := s.seconds + 1) else s
  }

  /** `n` seconds of the game clock. */
  function Ticks(s: State, n: nat): (t: State)
    decreases n
  {
    if n == 0 then s else Ticks(Tick(s), n - 1)
  }

  /** While the game is started and not over, the clock counts every second
      and nothing else changes; once it is not running it stays frozen. */
  lemma {:induction false} ClockCountsSeconds(s: State, n: nat)
    ensures ClockRunning(s) ==> Ticks(s, n) == s.(seconds := s.seconds + n)
    ensures !ClockRunning(s) ==> Ticks(s, n) == s
    decreases n
  {
    if n > 0 {
      ClockCountsSeconds(Tick(s), n - 1);
    }
  }

  /** What `saveScore` hands to the leaderboard endpoint. */
  datatype Submission = Submission(name: string, email: string, attempts: nat)

  /** The state after `saveScore`, and the submission it sent, if any. */
  datatype Saved = Saved(state: State, sent: Option<Submission>)

  /** `saveScore`.  Before the game is over only the error message changes and
      nothing is sent.  Otherwise the player's name, email and attempt count are
      sent, the message is cleared and the session starts over on a newly
      generated deck.  The client helper reports network failures only to the
      console, so the reset happens whatever the endpoint answers. */
  function Save(s: State, name: string, email: string, exchanges: seq<(nat, nat)>): (r: Saved)
    ensures !GameOver(s) ==> r.sent == None && r.state == s.(errorMessage := NotFinishedMessage)
    ensures GameOver(s) ==> r.sent == Some(Submission(name, email, s.attempts))
    ensures GameOver(s) ==> IsDeck(r.state.cards) && r.state.flipped == [] && r.state.solved == []
    ensures GameOver(s) ==> r.state.attempts == 0 && r.state.seconds == 0 && !r.state.gameStarted
    ensures GameOver(s) ==> r.state.errorMessage == ""
  {
    if !GameOver(s) then Saved(s.(errorMessage := NotFinishedMessage), None)
    else Saved(Fresh(GenerateDeck(exchanges)), Some(Submission(name, email, s.attempts)))
  }

  /** The inputs the session reacts to. */
  datatype Event =
    | PressStart
    | ClickCard(position: nat)
    | DelayElapsed
    | SecondElapsed
    | PressSave(name: string, email: string, exchanges: seq<(nat, nat)>)

  /** One event.  The resolution timer exists only while two positions are in
      `flipped`, so `DelayElapsed` changes nothing otherwise. */
  function Step(s: State, e: Event): (t: State) {
    match e
    case PressStart => Start(s)
    case ClickCard(i) => Click(s, i)
    case DelayElapsed => if Pending(s) then Resolve(s) else s
    case SecondElapsed => Tick(s)
    case PressSave(name, email, exchanges) => Save(s, name, email, exchanges).state
  }

  /** A run of events, in order. */
  function Run(s: State, events: seq<Event>): (t: State)
    decreases |events|
  {
    if events == [] then s else Run(Step(s, events[0]), events[1..])
  }

  /** A run splits at any point. */
  lemma {:induction false} RunAppend(s: State, xs: seq<Event>, ys: seq<Event>)
    ensures Run(s, xs + ys) == Run(Run(s, xs), ys)
    decreases |xs|
  {
    if xs == [] {
      assert xs + ys == ys;
    } else {
      assert (xs + ys)[0] == xs[0] && (xs + ys)[1..] == xs[1..] + ys;
      RunAppend(Step(s, xs[0]), xs[1..], ys);
    }
  }

  /** No list entry occurs twice. */
  ghost predicate Distinct(xs: seq<nat>) {
    forall j, k :: 0 <= j < k < |xs| ==> xs[j] != xs[k]
  }

  /** Every entry is a position of a deck of `n` cards. */
  ghost predicate OnDeck(xs: seq<nat>, n: nat) {
    forall k :: 0 <= k < |xs| ==> xs[k] < n
  }

  /** `flipped`, the positions turned over and not yet resolved, never holds
      more than two, all different. */
  ghost predicate FlipInvariant(s: State) {
    |s.flipped| <= 2 && Distinct(s.flipped)
  }

  /** Every event keeps `flipped` short and free of repeats, whatever
      position is clicked. */
  lemma StepKeepsFlipInvariant(s: State, e: Event)
    requires FlipInvariant(s)
    ensures FlipInvariant(Step(s, e))
  {
  }

  /** `flipped` never holds more than two positions, and never one twice. */
  lemma {:induction false} RunKeepsFlipInvariant(s: State, events: seq<Event>)
    requires FlipInvariant(s)
    ensures FlipInvariant(Run(s, events))
    decreases |events|
  {
    if events != [] {
      StepKeepsFlipInvariant(s, events[0]);
      RunKeepsFlipInvariant(Step(s, events[0]), events[1..]);
    }
  }

  /** Cards can only be clicked where they are drawn: the board renders one
      clickable tile per position of the deck. */
  predicate OnBoard(s: State, e: Event) {
    e.ClickCard? ==> e.position < |s.cards|
  }

  /** A run in which every click lands on the board. */
  ghost predicate PlayedOnBoard(s: State, events: seq<Event>)
    decreases |events|
  {
    events == [] || (OnBoard(s, events[0]) && PlayedOnBoard(Step(s, events[0]), events[1..]))
  }

  /** What holds of every state a player can reach. */
  ghost predicate Consistent(s: State) {
    && IsDeck(s.cards)
    && FlipInvariant(s)
    && OnDeck(s.flipped, |s.cards|)
    && OnDeck(s.solved, |s.cards|)
  }

  /** Every starting state is consistent. */
  lemma FreshIsConsistent(exchanges: seq<(nat, nat)>)
    ensures Consistent(Fresh(GenerateDeck(exchanges)))
  {
  }

  /** One event on the board keeps the state consistent. */
  lemma StepKeepsConsistent(s: State, e: Event)
    requires Consistent(s) && OnBoard(s, e)
    ensures Consistent(Step(s, e))
  {
  }

  /** Every state reached by playing on the board is consistent. */
  lemma {:induction false} RunKeepsConsistent(s: State, events: seq<Event>)
    requires Consistent(s) && PlayedOnBoard(s, events)
    ensures Consistent(Run(s, events))
    decreases |events|
  {
    if events != [] {
      StepKeepsConsistent(s, events[0]);
      RunKeepsConsistent(Step(s, events[0]), events[1..]);
    }
  }

  /** The positions `0 .. n-1`. */
  ghost function Positions(n: nat): (r: set<nat>)
    ensures forall i: nat :: i in r <==> i < n
    ensures |r| == n
  {
    if n == 0 then {} else Positions(n - 1) + {n - 1}
  }

  /** The positions a list mentions. */
  ghost function Elements(xs: seq<nat>): set<nat> {
    set x | x in xs
  }

  /** A list without repeats has as many entries as elements. */
  lemma {:induction false} DistinctCount(xs: seq<nat>)
    requires Distinct(xs)
    ensures |Elements(xs)| == |xs|
  {
    if xs != [] {
      var init := xs[..|xs| - 1];
      var last := xs[|xs| - 1];
      assert xs == init + [last];
      assert Distinct(init);
      DistinctCount(init);
      assert Elements(xs) == Elements(init) + {last};
    }
  }

  /** A subset is no larger than its superset. */
  lemma {:induction false} SubsetCount(a: set<nat>, b: set<nat>)
    requires a <= b
    ensures |a| <= |b|
    decreases a
  {
    if a != {} {
      var x :| x in a;
      SubsetCount(a - {x}, b - {x});
    }
  }

  /** The win test means "every position solved" exactly when `solved` holds
      positions of the deck without repeats. */
  lemma WinMeansAllSolved(s: State)
    requires Distinct(s.solved) && OnDeck(s.solved, |s.cards|)
    ensures GameOver(s) <==> forall i :: 0 <= i < |s.cards| ==> i in s.solved
  {
    var have := Elements(s.solved);
    var all := Positions(|s.cards|);
    DistinctCount(s.solved);
    assert have <= all;
    if GameOver(s) {
      forall i | 0 <= i < |s.cards| ensures i in s.solved {
        if i !in s.solved {
          assert have <= all - {i};
          assert |all - {i}| == |all| - 1;
          SubsetCount(have, all - {i});
          assert false;
        }
      }
    }
    if forall i :: 0 <= i < |s.cards| ==> i in s.solved {
      assert all <= have;
      assert have == all;
    }
  }

  /** One round of play on a known pair: two clicks and the delay. */
  function PairRound(a: nat, b: nat): (r: seq<Event>) {
    [ClickCard(a), ClickCard(b), DelayElapsed]
  }

  /** A round on a matching pair from a state with nothing in `flipped` solves it
      once more and counts one attempt. */
  lemma PlayPairRound(s: State, a: nat, b: nat)
    requires s.flipped == [] && a != b
    requires a < |s.cards| && b < |s.cards| && s.cards[a] == s.cards[b]
    ensures PlayedOnBoard(s, PairRound(a, b))
    ensures var t := Run(s, PairRound(a, b));
            && t.solved == s.solved + [a, b] && t.flipped == [] && t.attempts == s.attempts + 1
            && t.cards == s.cards && t.seconds == s.seconds && t.gameStarted
  {
    RoundSteps(s, a, b);
    var s1 := Click(s, a);
    var s2 := Click(s1, b);
    assert s2.flipped == [a, b] && IsMatch(s2);
  }

  /** A round is two clicks followed by the delay, and it stays on the board
      when both positions are on the deck. */
  lemma RoundSteps(s: State, a: nat, b: nat)
    ensures Run(s, PairRound(a, b)) == Step(Step(Step(s, ClickCard(a)), ClickCard(b)), DelayElapsed)
    ensures a < |s.cards| && b < |s.cards| ==> PlayedOnBoard(s, PairRound(a, b))
  {
    var r := PairRound(a, b);
    var s1 := Step(s, r[0]);
    var s2 := Step(s1, r[1..][0]);
    var s3 := Step(s2, r[1..][1..][0]);
    assert r[1..][1..][1..] == [];
    assert Run(s2, r[1..][1..]) == s3;
    assert Run(s1, r[1..]) == s3;
    if a < |s.cards| && b < |s.cards| {
      assert PlayedOnBoard(s2, r[1..][1..]);
      assert PlayedOnBoard(s1, r[1..]);
    }
  }

  /** `k` rounds on the same pair. */
  function Rounds(a: nat, b: nat, k: nat): (r: seq<Event>)
    ensures |r| == 3 * k
  {
    if k == 0 then [] else PairRound(a, b) + Rounds(a, b, k - 1)
  }

  /** `t` is `s` after `k` rounds on the pair `a`, `b`: the old `solved`
      entries stay in place, and the `2 * k` entries after them are all `a`
      or `b`. */
  ghost predicate Replayed(s: State, t: State, a: nat, b: nat, k: nat) {
    && t.cards == s.cards
    && t.flipped == []
    && |t.solved| == |s.solved| + 2 * k
    && t.attempts == s.attempts + k
    && t.solved[..|s.solved|] == s.solved
    && (forall j :: |s.solved| <= j < |t.solved| ==> t.solved[j] == a || t.solved[j] == b)
  }

  /** `k` rounds are one round followed by `k - 1` more. */
  lemma ComposeRounds(s: State, a: nat, b: nat, k: nat)
    requires k > 0
    ensures Run(s, Rounds(a, b, k)) == Run(Run(s, PairRound(a, b)), Rounds(a, b, k - 1))
  {
    assert Rounds(a, b, k) == PairRound(a, b) + Rounds(a, b, k - 1);
    RunAppend(s, PairRound(a, b), Rounds(a, b, k - 1));
  }

  /** A first round followed by `k - 1` replays makes `k` replays. */
  lemma ReplayedAfterRound(s: State, s3: State, t: State, a: nat, b: nat, k: nat)
    requires k > 0
    requires s3.solved == s.solved + [a, b] && s3.flipped == [] && s3.attempts == s.attempts + 1
    requires s3.cards == s.cards
    requires Replayed(s3, t, a, b, k - 1)
    ensures Replayed(s, t, a, b, k)
  {
    assert t.solved[..|s3.solved|] == s3.solved;
    assert t.solved[..|s.solved|] == s3.solved[..|s.solved|];
  }

  /** Every click of `events` lands on a deck of `n` cards, and no event
      deals a new deck. */
  ghost predicate ClicksWithin(events: seq<Event>, n: nat) {
    forall i :: 0 <= i < |events| ==> !events[i].PressSave? && (events[i].ClickCard? ==> events[i].position < n)
  }

  /** Only saving deals a new deck. */
  lemma StepKeepsCards(s: State, e: Event)
    requires !e.PressSave?
    ensures Step(s, e).cards == s.cards
  {
  }

  /** Events that click only on the deck and never save are played on the
      board. */
  lemma {:induction false} ClicksWithinOnBoard(s: State, events: seq<Event>)
    requires ClicksWithin(events, |s.cards|)
    ensures PlayedOnBoard(s, events)
    decreases |events|
  {
    if events != [] {
      StepKeepsCards(s, events[0]);
      assert ClicksWithin(events[1..], |s.cards|) by {
        forall i | 0 <= i < |events[1..]| ensures events[1..][i] == events[i + 1] {}
      }
      ClicksWithinOnBoard(Step(s, events[0]), events[1..]);
    }
  }

  /** The rounds on `a` and `b` click nowhere else and never save. */
  lemma {:induction false} RoundsClickWithin(a: nat, b: nat, k: nat, n: nat)
    requires a < n && b < n
    ensures ClicksWithin(Rounds(a, b, k), n)
    decreases k
  {
    if k > 0 {
      RoundsClickWithin(a, b, k - 1, n);
      var xs: seq<Event> := PairRound(a, b);
      var ys: seq<Event> := Rounds(a, b, k - 1);
      var r: seq<Event> := xs + ys;
      assert Rounds(a, b, k) == r;
      forall i | 0 <= i < |r|
        ensures !r[i].PressSave? && (r[i].ClickCard? ==> r[i].position < n)
      {
        if i >= |xs| {
          assert r[i] == ys[i - |xs|];
        }
      }
    }
  }

  /** Replaying two positions of the deck, matching or not, is legal play on
      the board. */
  lemma ReplayOnBoard(s: State, a: nat, b: nat, k: nat)
    requires a < |s.cards| && b < |s.cards|
    ensures PlayedOnBoard(s, Rounds(a, b, k))
  {
    RoundsClickWithin(a, b, k, |s.cards|);
    ClicksWithinOnBoard(s, Rounds(a, b, k));
  }

  /** A matching pair can be played again and again: every round appends both
      positions to `solved` once more, because solved positions are not
      refused by `handleClick`. */
  lemma {:induction false} ReplayOnePair(s: State, a: nat, b: nat, k: nat)
    requires s.flipped == [] && a != b
    requires a < |s.cards| && b < |s.cards| && s.cards[a] == s.cards[b]
    ensures Replayed(s, Run(s, Rounds(a, b, k)), a, b, k)
    decreases k
  {
    if k > 0 {
      PlayPairRound(s, a, b);
      var s3 := Run(s, PairRound(a, b));
      ReplayOnePair(s3, a, b, k - 1);
      ComposeRounds(s, a, b, k);
      ReplayedAfterRound(s, s3, Run(s3, Rounds(a, b, k - 1)), a, b, k);
    } else {
      assert Rounds(a, b, k) == [];
    }
  }

  /** Playing on the board can be split at any point. */
  lemma {:induction false} PlayedOnBoardAppend(s: State, xs: seq<Event>, ys: seq<Event>)
    requires PlayedOnBoard(s, xs) && PlayedOnBoard(Run(s, xs), ys)
    ensures PlayedOnBoard(s, xs + ys)
    decreases |xs|
  {
    if xs == [] {
      assert xs + ys == ys;
    } else {
      assert (xs + ys)[0] == xs[0] && (xs + ys)[1..] == xs[1..] + ys;
      PlayedOnBoardAppend(Step(s, xs[0]), xs[1..], ys);
    }
  }

  /** Starting on deck `d`, the player presses start and replays the pair
      `a`, `b` half as many times as there are cards: every click lands on
      the board, the win test passes, and no position other than `a` and `b`
      has ever been solved. */
  ghost predicate FooledBy(d: seq<Symbol>, a: nat, b: nat) {
    var events := [PressStart] + Rounds(a, b, |d| / 2);
    var t := Run(Fresh(d), events);
    && PlayedOnBoard(Fresh(d), events)
    && GameOver(t)
    && forall x :: x in t.solved ==> x == a || x == b
  }

  /** The win test is fooled: on any deck of even size, a player who knows
      where one pair lies can replay it until `solved` is as long as the deck. */
  lemma ReplayFoolsWinTest(d: seq<Symbol>, a: nat, b: nat)
    requires a != b && a < |d| && b < |d| && d[a] == d[b] && |d| % 2 == 0
    ensures FooledBy(d, a, b)
  {
    var s := Fresh(d);
    var s1 := Start(s);
    assert Run(s, [PressStart]) == s1;
    ReplayOnePair(s1, a, b, |d| / 2);
    ReplayOnBoard(s1, a, b, |d| / 2);
    RunAppend(s, [PressStart], Rounds(a, b, |d| / 2));
    PlayedOnBoardAppend(s, [PressStart], Rounds(a, b, |d| / 2));
  }

  /** The other position holding the face of the first card. */
  function TwinOfFirst(d: seq<Symbol>): (j: nat)
    requires IsDeck(d)
    ensures 0 < j < |d| && d[j] == d[0]
  {
    DeckShape(d);
    assert d == [d[0]] + d[1..];
    assert multiset(d)[d[0]] == 1 + multiset(d[1..])[d[0]];
    IndexFrom(d, d[0], 1)
  }

  /** Every deck the game can deal (see `GenerateDeck`) can be "won" without solving it: replaying
      the first card and its twin eight times passes the win test while the
      other fourteen positions have never been solved. */
  lemma FalseWin(d: seq<Symbol>)
    requires IsDeck(d)
    ensures |d| == 16
    ensures FooledBy(d, 0, TwinOfFirst(d))
  {
    DeckShape(d);
    ReplayFoolsWinTest(d, 0, TwinOfFirst(d));
  }

  /** Once every position is solved, clicking a solved pair again undoes the
      win: the clock restarts and saving is refused. */
  lemma WinUndone(s: State, a: nat, b: nat)
    requires Consistent(s) && s.flipped == [] && GameOver(s) && s.gameStarted
    requires a != b && a < |s.cards| && b < |s.cards| && s.cards[a] == s.cards[b]
    ensures !GameOver(Run(s, PairRound(a, b)))
    ensures ClockRunning(Run(s, PairRound(a, b)))
  {
    PlayPairRound(s, a, b);
  }

  /** Once every position is solved, turning over two solved cards that do
      not match keeps the win but counts one more attempt, so the score that
      is saved afterwards is worse than the one earned. */
  lemma WinKeptAttemptCounted(s: State, a: nat, b: nat)
    requires s.flipped == [] && GameOver(s)
    requires a != b && a < |s.cards| && b < |s.cards| && s.cards[a] != s.cards[b]
    ensures var t := Run(s, PairRound(a, b));
            && PlayedOnBoard(s, PairRound(a, b))
            && GameOver(t) && t.solved == s.solved && t.attempts == s.attempts + 1
  {
    RoundSteps(s, a, b);
    var s1 := Click(s, a);
    var s2 := Click(s1, b);
    assert s2.flipped == [a, b] && !IsMatch(s2);
  }

  /** Two pairs on a four-card deck: flipping 0 and 2, then 1 and 3, solves
      everything in two attempts. */
  lemma TwoPairGame()
    ensures var s := Fresh([Alien, Astronaut, Alien, Astronaut]);
            var t := Run(s, [PressStart] + PairRound(0, 2) + PairRound(1, 3));
            && t.solved == [0, 2, 1, 3]
            && t.attempts == 2
            && GameOver(t)
  {
    var s := Fresh([Alien, Astronaut, Alien, Astronaut]);
    var s1 := Start(s);
    assert Run(s, [PressStart]) == s1;
    PlayPairRound(s1, 0, 2);
    var s2 := Run(s1, PairRound(0, 2));
    PlayPairRound(s2, 1, 3);
    RunAppend(s, [PressStart], PairRound(0, 2));
    RunAppend(s, [PressStart] + PairRound(0, 2), PairRound(1, 3));
  }

}

=== FILE: submission.dfy ===
/**
  Saving a score end to end: `saveScore` in components/MemoryGame.tsx sends
  its POST to the handler of pages/api/addUser.js.  Whether the request
  reaches the endpoint is a parameter: the client helper swallows network
  failures, so the session is reset either way.
*/
module ScoreSubmission {
  import opened Optional
  import opened Deck
  import opened Session
  import opened Users

  datatype Outcome = Outcome(state: State, store: Store)

  /** `saveScore`, with its request delivered to the endpoint when `delivered`. */
  function SaveScore(s: State, name: string, email: string, exchanges: seq<(nat, nat)>,
                     delivered: bool, store: Store): (o: Outcome)
    ensures !GameOver(s) ==> o.store == store && o.state == s.(errorMessage := NotFinishedMessage)
    ensures GameOver(s) ==> o.state == Save(s, name, email, exchanges).state
    ensures GameOver(s) ==> o.state.solved == [] && o.state.attempts == 0 && IsDeck(o.state.cards)
    ensures GameOver(s) ==> o.state.flipped == [] && o.state.seconds == 0 && !o.state.gameStarted
    ensures GameOver(s) && !delivered ==> o.store == store
    ensures GameOver(s) && delivered ==>
              && email in o.store
              && o.store[email].attempts
                 == (if email in store then Min(store[email].attempts, s.attempts) else s.attempts)
              && (forall e :: e in store && e != email ==> e in o.store && o.store[e] == store[e])
              && (email !in store ==> o.store[email] == User(name, email, s.attempts))
              && (email in store ==> o.store[email].name == store[email].name)
              && o.store[email].email == (if email in store then store[email].email else email)
              && o.store.Keys == store.Keys + {email}
              && o.store == Upsert(store, name, email, s.attempts).store
  {
    var saved := Save(s, name, email, exchanges);
    match saved.sent
    case None => Outcome(saved.state, store)
    case Some(sub) =>
      if delivered then
        Outcome(saved.state, Handle(store, Request("POST", sub.name, sub.email, sub.attempts)).store)
      else
        Outcome(saved.state, store)
  }

  /** A score is saved once: the save resets the session, so pressing save
      again straight away is refused and leaves the leaderboard alone. */
  lemma SavedOnce(s: State, name: string, email: string, exchanges: seq<(nat, nat)>,
                  delivered: bool, store: Store, again: seq<(nat, nat)>, retried: bool)
    requires GameOver(s)
    ensures var o := SaveScore(s, name, email, exchanges, delivered, store);
            var o2 := SaveScore(o.state, name, email, again, retried, o.store);
            && !GameOver(o.state)
            && o2.store == o.store
            && o2.state.errorMessage == NotFinishedMessage
  {
    var o := SaveScore(s, name, email, exchanges, delivered, store);
    DeckShape(o.state.cards);
  }

}

=== FILE: time_display.dfy ===
/**
  The clock shown above the board (components/MemoryGame.tsx):
  `Math.floor(seconds / 60)`, a colon, and `seconds % 60` left-padded with
  zeros to two characters.  `Parse` reads such a display back; the two are
  proved to be inverse to each other.
*/
module TimeDisplay {
  import opened Optional

  predicate IsDigit(c: char) {
    '0' <= c <= '9'
  }

  predicate AllDigits(s: string) {
    forall i :: 0 <= i < |s| ==> IsDigit(s[i])
  }

  function DigitValue(c: char): (d: nat)
    requires IsDigit(c)
    ensures d < 10
  {
    c as int - '0' as int
  }

  function DigitChar(d: nat): (c: char)
    requires d < 10
    ensures IsDigit(c) && DigitValue(c) == d
  {
    (d + '0' as int) as char
  }

  /** The number a string of decimal digits denotes; leading zeros allowed. */
  function Value(s: string): (n: nat)
    requires AllDigits(s)
    decreases |s|
  {
    if s == [] then 0 else 10 * Value(s[..|s| - 1]) + DigitValue(s[|s| - 1])
  }

  /** How JavaScript's `String(n)` writes a natural number: at least one digit,
      no leading zero. */
  predicate Canonical(s: string) {
    1 <= |s| && AllDigits(s) && (|s| > 1 ==> s[0] != '0')
  }

  /** `String(n)` for a natural number. */
  function Decimal(n: nat): (r: string)
    ensures Canonical(r) && Value(r) == n
    decreases n
  {
    if n < 10 then [DigitChar(n)]
    else
      var init := Decimal(n / 10);
      var r := init + [DigitChar(n % 10)];
      assert r[..|r| - 1] == init;
      r
  }

  /** `s.padStart(width, fill)` with a one-character fill. */
  function PadStart(s: string, width: nat, fill: char): (r: string)
    ensures |r| == if |s| < width then width else |s|
    ensures r[|r| - |s|..] == s
    ensures forall i :: 0 <= i < |r| - |s| ==> r[i] == fill
  {
    if |s| < width then seq(width - |s|, _ => fill) + s else s
  }

  /** A number below 100 is written with at most two digits. */
  lemma ShortDecimal(n: nat)
    requires n < 100
    ensures |Decimal(n)| <= 2
  {
    if n >= 10 {
      assert |Decimal(n / 10)| == 1;
    }
  }

  /** Zero-padding a number below 100 to two characters gives two digits
      that still denote it. */
  lemma {:induction false} PaddedDecimal(n: nat)
    requires n < 100
    ensures var p := PadStart(Decimal(n), 2, '0');
            |p| == 2 && AllDigits(p) && Value(p) == n
  {
    ShortDecimal(n);
    var d := Decimal(n);
    var p := PadStart(d, 2, '0');
    if |d| == 1 {
      assert p == ['0'] + d;
      assert p[..1] == ['0'];
    }
  }

  /** The three parts of a display can be read back off its ends. */
  lemma Split(minutes: string, secs: string)
    requires |secs| == 2
    ensures var r := minutes + ":" + secs;
            && |r| == |minutes| + 3
            && r[..|r| - 3] == minutes
            && r[|r| - 3] == ':'
            && r[|r| - 2..] == secs
  {
  }

  /** The time display: minutes, a colon, and the seconds within the minute as
      exactly two digits. */
  function Format(seconds: nat): (r: string)
    ensures |r| >= 4 && r[|r| - 3] == ':'
    ensures Canonical(r[..|r| - 3]) && Value(r[..|r| - 3]) == seconds / 60
    ensures AllDigits(r[|r| - 2..]) && Value(r[|r| - 2..]) == seconds % 60
  {
    var minutes := Decimal(seconds / 60);
    var secs := PadStart(Decimal(seconds % 60), 2, '0');
    PaddedDecimal(seconds % 60);
    Split(minutes, secs);
    minutes + ":" + secs
  }

  /** Reads a display back: canonical minutes, a colon, two digits below 60. */
  function Parse(t: string): (r: Option<nat>)
    ensures r.Some? ==> |t| >= 4 && t[|t| - 3] == ':'
  {
    if |t| >= 4 && t[|t| - 3] == ':' && Canonical(t[..|t| - 3])
       && AllDigits(t[|t| - 2..]) && Value(t[|t| - 2..]) < 60
    then Some(60 * Value(t[..|t| - 3]) + Value(t[|t| - 2..]))
    else None
  }

  /** A canonical string starts with a non-zero digit, so it denotes at
      least 10^(length - 1); in particular a string of two or more digits
      denotes at least 10. */
  lemma {:induction false} CanonicalAtLeast(s: string)
    requires Canonical(s)
    ensures |s| > 1 ==> Value(s) >= 10
    ensures Value(s) >= 1 || s == "0"
    decreases |s|
  {
    if |s| > 1 {
      var init := s[..|s| - 1];
      assert init[0] == s[0];
      CanonicalAtLeast(init);
    }
  }

  /** Writing back the number a canonical string denotes gives that string. */
  lemma {:induction false} DecimalOfValue(s: string)
    requires Canonical(s)
    ensures Decimal(Value(s)) == s
    decreases |s|
  {
    if |s| > 1 {
      var init := s[..|s| - 1];
      var last := s[|s| - 1];
      assert init[0] == s[0];
      DecimalOfValue(init);
      DecimalOfValueStep(init, last);
      assert s == init + [last];
    }
  }

  /** A digit appended to a string is its last digit in base ten. */
  lemma ValueSnoc(init: string, c: char)
    requires AllDigits(init) && IsDigit(c)
    ensures AllDigits(init + [c]) && Value(init + [c]) == 10 * Value(init) + DigitValue(c)
  {
    assert (init + [c])[..|init|] == init;
  }

  /** The step of `DecimalOfValue`: if a canonical string is written back
      correctly, so is the string with one more digit. */
  lemma DecimalOfValueStep(init: string, last: char)
    requires Canonical(init) && init[0] != '0' && IsDigit(last)
    requires Decimal(Value(init)) == init
    ensures Decimal(Value(init + [last])) == init + [last]
  {
    CanonicalAtLeast(init);
    ValueSnoc(init, last);
    AppendDigit(Value(init), DigitValue(last));
    DigitRoundTrip(last);
  }

  /** Reading a digit and writing it back gives the same character. */
  lemma DigitRoundTrip(c: char)
    requires IsDigit(c)
    ensures DigitChar(DigitValue(c)) == c
  {
  }

  /** Appending a digit to a non-zero number appends it to the number's
      string. */
  lemma AppendDigit(v: nat, d: nat)
    requires 1 <= v && d < 10
    ensures Decimal(10 * v + d) == Decimal(v) + [DigitChar(d)]
  {
    var n := 10 * v + d;
    assert n / 10 == v && n % 10 == d;
  }

  /** Two digits are written by padding: the display of the seconds. */
  lemma TwoDigits(s: string)
    requires |s| == 2 && AllDigits(s) && Value(s) < 60
    ensures PadStart(Decimal(Value(s)), 2, '0') == s
  {
  }

  /** The reader accepts every display and recovers its number. */
  lemma ParseFormat(n: nat)
    ensures Parse(Format(n)) == Some(n)
  {
  }

  /** Everything the reader accepts is the display of the number it reads. */
  lemma FormatParse(t: string)
    requires Parse(t).Some?
    ensures Format(Parse(t).value) == t
  {
    var n := Parse(t).value;
    var minutes := t[..|t| - 3];
    var secs := t[|t| - 2..];
    assert n / 60 == Value(minutes) && n % 60 == Value(secs);
    DecimalOfValue(minutes);
    TwoDigits(secs);
    assert t == minutes + ":" + secs;
  }

  /** The display and the reader are inverse: a string is read as `n` exactly
      when it is the display of `n`. */
  lemma ParseIsInverse(t: string, n: nat)
    ensures Parse(t) == Some(n) <==> t == Format(n)
  {
    if t == Format(n) {
      ParseFormat(n);
    }
    if Parse(t) == Some(n) {
      FormatParse(t);
    }
  }

}

=== FILE: users.dfy ===
/**
  The leaderboard endpoint of pages/api/addUser.js.

  The persistence engine is an abstract store of users keyed by email.  A
  POST creates the user for a new email, lowers the stored attempt count
  when the new one is strictly lower, and otherwise leaves the store alone;
  in every case it answers 200 with the stored user.  Any other method is
  answered 405.
*/
module Users {

  /** A leaderboard entry.  The identifier the persistence engine assigns is
      not modelled. */
  datatype User = User(name: string, email: string, attempts: int)

  /** The user table, looked up by its unique email column. */
  type Store = map<string, User>

  /** Every record sits under its own email. */
  ghost predicate KeyedByEmail(store: Store) {
    forall e :: e in store ==> store[e].email == e
  }

  /** The smaller of two attempt counts. */
  function Min(a: int, b: int): (m: int)
    ensures m <= a && m <= b && (m == a || m == b)
  {
    if a <= b then a else b
  }

  /** The store after a POST and the user the endpoint answers with. */
  datatype Upserted = Upserted(store: Store, user: User)

  /** The find-then-create-or-lower rule of the POST branch. */
  function Upsert(store: Store, name: string, email: string, attempts: int): (r: Upserted)
    ensures r.store.Keys == store.Keys + {email}
    ensures email in r.store && r.store[email] == r.user
    ensures forall e :: e in store && e != email ==> r.store[e] == store[e]
    ensures email !in store ==> r.user == User(name, email, attempts)
    ensures email in store ==> r.user == store[email].(attempts := Min(store[email].attempts, attempts))
    ensures email in store && attempts >= store[email].attempts ==> r.store == store
  {
    if email in store then
      var existing := store[email];
      if attempts < existing.attempts then
        var updated := existing.(attempts := attempts);
        Upserted(store[email := updated], updated)
      else
        Upserted(store, existing)
    else
      var created := User(name, email, attempts);
      Upserted(store[email := created], created)
  }

  /** A POST keeps every record under its own email. */
  lemma UpsertKeepsKeys(store: Store, name: string, email: string, attempts: int)
    requires KeyedByEmail(store)
    ensures KeyedByEmail(Upsert(store, name, email, attempts).store)
  {
  }

  /** Posting the same result twice has the effect of posting it once. */
  lemma UpsertIdempotent(store: Store, name: string, email: string, attempts: int)
    ensures var once := Upsert(store, name, email, attempts);
            Upsert(once.store, name, email, attempts) == once
  {
  }

  /** A new email adds exactly one record. */
  lemma UpsertCreates(store: Store, name: string, email: string, attempts: int)
    requires email !in store
    ensures |Upsert(store, name, email, attempts).store| == |store| + 1
  {
    var r := Upsert(store, name, email, attempts);
    assert r.store.Keys == store.Keys + {email};
  }

  /** Successive POSTs of one player's results, in order. */
  function PostAll(store: Store, name: string, email: string, results: seq<int>): (after: Store)
    decreases |results|
  {
    if results == [] then store
    else PostAll(Upsert(store, name, email, results[0]).store, name, email, results[1..])
  }

  /** The smallest of a non-empty list of results. */
  function Best(results: seq<int>): (b: int)
    requires results != []
    ensures b in results
    ensures forall k :: 0 <= k < |results| ==> b <= results[k]
  {
    if |results| == 1 then results[0] else Min(results[0], Best(results[1..]))
  }

  /** After any series of POSTs for one email, the store holds the best of all
      results posted, and of the result stored before; the name stays the one
      first stored; no other record changes. */
  lemma {:induction false} PostAllKeepsBest(store: Store, name: string, email: string, results: seq<int>)
    requires results != []
    ensures var after := PostAll(store, name, email, results);
            && email in after
            && after[email].attempts
               == (if email in store then Min(store[email].attempts, Best(results)) else Best(results))
            && after[email].name == (if email in store then store[email].name else name)
            && (forall e :: e in store && e != email ==> e in after && after[e] == store[e])
    decreases |results|
  {
    var next := Upsert(store, name, email, results[0]).store;
    if |results| > 1 {
      PostAllKeepsBest(next, name, email, results[1..]);
    }
  }

  /** An HTTP request to the endpoint, with its HTTP method (`verb`) and JSON body. */
  datatype Request = Request(verb: string, name: string, email: string, attempts: int)

  datatype Payload = UserJson(user: User) | ErrorJson(message: string)

  datatype Response = Response(status: nat, payload: Payload)

  /** The store after a request and the response sent. */
  datatype Handled = Handled(store: Store, response: Response)

  /** `handler`: POST upserts and answers 200 with the stored user; every other
      method is refused with 405 and the store is not touched. */
  function Handle(store: Store, req: Request): (h: Handled)
    ensures req.verb != "POST" ==> h.store == store
    ensures req.verb != "POST" ==> h.response == Response(405, ErrorJson("Method Not Allowed"))
    ensures req.verb == "POST" ==>
              var r := Upsert(store, req.name, req.email, req.attempts);
              h.store == r.store && h.response == Response(200, UserJson(r.user))
  {
    if req.verb == "POST" then
      var r := Upsert(store, req.name, req.email, req.attempts);
      Handled(r.store, Response(200, UserJson(r.user)))
    else
      Handled(store, Response(405, ErrorJson("Method Not Allowed")))
  }

  /** Sending the same request again answers the same and changes nothing
      more: a retried save is harmless, and a refused method stays refused. */
  lemma HandleRepeatable(store: Store, req: Request)
    ensures var once := Handle(store, req);
            Handle(once.store, req) == once
  {
    if req.verb == "POST" {
      UpsertIdempotent(store, req.name, req.email, req.attempts);
    }
  }

  /** The two orders of posting 10 and 15, or 10 and 5, for one email. */
  lemma KeepsLowerScore(store: Store, name: string, email: string)
    requires email !in store
    ensures PostAll(store, name, email, [10, 15])[email].attempts == 10
    ensures PostAll(store, name, email, [10, 5])[email].attempts == 5
  {
  }

}
